=== FILE: README.md ===
# NexusAI shell authorization gate — Dafny model

This project models the authorization logic inside the `Layout` shell of the
NexusAI web application (`site/layout.js`). The shell resolves the signed-in
identity to a `NexusProfile` record. It creates that record on first visit,
and the first account in an empty system becomes the owner. It then decides
what to render:

- the mandatory-2FA setup interstitial for admins and owners without 2FA;
- the step-up code interstitial for 2FA accounts whose session is unverified;
- the application content.

It also verifies step-up codes (TOTP first, then a backup code for 8-character
codes). Accounts without 2FA get a 2FA reminder ("nudge") on every fetch that reaches the security checks, until they dismiss it; after that it stays hidden for the rest of the browser session.

All external calls are inputs to the model:

- The identity provider, the profile store's `filter`/`create` and the security
  service are oracle values (`Bootstrap.Services`) or function parameters.
  For the security service these are the `totp` and `backup` verification
  oracles of `Session.Verify`.
- The profile store is a sequence of records in the order the store returns them.
- Session storage holds two flags (`Session.Storage`). They survive a remount of
  the shell but not a new browser session. The shell writes `'true'` into
  `nexus_session_verified`. The model also records which account's code was
  accepted. The fetch as written ignores that record; only the corrected fetch
  reads it.
- Edits made to a record outside the shell, such as the security page enabling
  2FA, are an event of their own (`Trace.ProfileEdited`).

Events reach the shell through `Trace.Step`, whose guards follow the source:

- A route change re-runs the fetch only when the pathname changes (`site/layout.js:151-152`, the effect's dependency on `location.pathname`).
- A code submission has an effect only on the step-up screen, the one place the code form is rendered (`site/layout.js:241`).
- The nudge's close button works only on the content screen while the nudge shows (`site/layout.js:358-362`).
- An edit made outside the shell changes the store only. The shell sees it at its next fetch.

Modules, leaf first:

- `Wrappers` (Option)
- `Profiles` (role and record)
- `ProfileStore` (the two queries and record creation)
- `Bootstrap` (resolve or create the caller's record)
- `Gate` (render decision)
- `Menu` (role-dependent menu entries)
- `Session` (the shell's state and its transitions)
- `Trace` (whole browser sessions as event sequences, with invariants proved by induction)

## Model

| member | source | states |
|---|---|---|
| ProfileStore.Filter | site/layout.js:92-96 | the store's filter returns exactly the matching records, never more than the store holds, and is empty iff none match |
| ProfileStore.FilterHeadIsFirstMatch | site/layout.js:95-96 | a non-empty query result is headed by the earliest matching record in store order |
| ProfileStore.OwnRecordIsTheOnlyMatch | site/layout.js:92-96 | with one record per identity, the by-creator query returns exactly that identity's record |
| Bootstrap.Resolve | site/layout.js:88-131 | no caller gives no resolution; an identity with records gets its first record and nothing is created; otherwise creation yields owner/elite/1000 exactly when no owner exists and user/free/20 otherwise, with zero usage; a failed owner query or create leaves no profile |
| Bootstrap.ResolveTakesFirstRecord | site/layout.js:95-96 | an identity with records resolves to the earliest of them in store order |
| Bootstrap.AuditOutcomeIrrelevant | site/layout.js:119-126 | whether the registration audit log succeeds changes neither the resolved profile nor the store |
| Bootstrap.ResolvePreservesStore | site/layout.js:103-117 | a fetch keeps at most one record per identity, never removes or alters a record, and never loses an owner |
| Bootstrap.RegistrationLeavesAnOwner | site/layout.js:106-115 | after any successful registration the system holds an owner |
| Bootstrap.RegistrationIsFoundAgain | site/layout.js:92-97 | a later fetch by an identity that just registered finds that record and creates nothing |
| Gate.Decide | site/layout.js:206-229 | setup is enforced iff a privileged profile lacks 2FA off the security route; step-up iff the session is unverified and the profile has 2FA; the two are exclusive and no profile means content |
| Gate.DecideMatchesStateMachine | site/layout.js:206-262 | the decision equals the rendering of the four-state gate (no profile, enforce setup, await step-up, authorized) |
| Gate.PrivilegedWithout2FA | site/layout.js:206-207 | an admin or owner without 2FA is held at setup on every route but the security route, where content renders |
| Gate.StepUpOnEveryRoute | site/layout.js:229 | a 2FA profile in an unverified session is asked to step up whatever the route |
| Menu.NavItems | site/layout.js:161-181 | the menu is exactly the base entries, then one ADMIN entry for admins and owners, then one OWNER entry, last, for owners |
| Menu.NavItemsListRoleRoutes | site/layout.js:175-181 | the ADMIN route is listed iff the profile is admin or owner, the OWNER route iff it is owner; no profile gives only the base entries |
| Session.Mount | site/layout.js:66-69 | a fresh shell holds no profile, is verified in memory, shows no nudge and renders content |
| Session.StepUpKeptRendersStepUp | site/layout.js:229 | in a state that keeps step-up, a held 2FA account that has not itself passed step-up is shown the step-up interstitial |
| Session.FetchAsWritten | site/layout.js:95-149 | as the code is written: the nudge turns on and the in-memory flag drops only for the profile that reached the checks, and only while no account has set the verification flag; a rejected login-security check skips the checks |
| Session.LoginCheckFailureSkipsStepUp | site/layout.js:99-101 | a 2FA account whose login-security check rejects sees content as written, and the step-up screen under the corrected fetch |
| Session.Fetch | site/layout.js:133-149 | corrected fetch: it stores the resolved profile; it turns the nudge on iff a profile without 2FA was resolved and the nudge was not dismissed, and never turns it off; it drops the in-memory verified flag iff the profile has 2FA and has not itself passed step-up in this browser session, and never raises it. As written, both checks run only when the login-security check completed, and the flag drops iff the profile has 2FA and no account has set the verification flag (`Session.FetchAsWritten`) |
| Session.FetchOf2FAAccountStepsUp | site/layout.js:143-149 | corrected fetch: a fetch that resolves a 2FA account which has not passed step-up in this browser session always ends at step-up; as written this fails when the login check rejects or another account set the flag (see "## Findings") |
| Session.Verify | site/layout.js:187-193 | the backup check is consulted iff TOTP fails and the code has 8 characters; a code is accepted iff TOTP accepts it or it has 8 characters and the backup check accepts it |
| Session.BackupIgnoredUnlessBackupLength | site/layout.js:190-193 | for a code of any other length than 8 the backup oracle cannot change the outcome and TOTP alone decides |
| Session.Submit | site/layout.js:183-203 | success sets the storage flag for the held account and the in-memory flag, so step-up is no longer rendered (step-up becomes content); failure, or no profile, changes nothing |
| Session.Dismiss | site/layout.js:362 | dismissal hides the nudge and records the dismissal, touching nothing else |
| Session.DismissedNudgeStaysHidden | site/layout.js:134-136 | no fetch after a dismissal shows the nudge |
| Session.FreshSessionShowsNudge | site/layout.js:134-136 | corrected fetch: for a profile without 2FA, a fetch after a dismissal leaves the nudge hidden, while the same fetch in a new browser session shows it; as written the second half needs the login-security check to complete |
| Trace.StartIsGood | site/layout.js:66-69 | a freshly mounted shell satisfies the invariant of either fetch |
| Trace.StepKeeps | site/layout.js:87-152 | under either fetch, every event keeps one record per identity, a dismissed nudge hidden, and that fetch's verification invariant (as written: a set flag means verified in memory; corrected: an account that has not itself passed step-up is unverified in memory); no event shrinks the store or clears a storage flag, and the shell's own events never alter a record or lose an owner |
| Trace.RunKeeps | site/layout.js:87-152 | the same for every sequence of route changes, remounts, code submissions, dismissals and outside edits |
| Trace.StepUpIsNeverSkipped | site/layout.js:143-149 | under the corrected fetch, every reachable state holding a 2FA account that has not itself passed step-up in this browser session renders step-up |
| Trace.VerifiedSessionNeverStepsUp | site/layout.js:143-149 | as written, once any account passed step-up in a browser session no later state renders step-up, whichever account the tab then holds |
| Trace.LoginCheckFailureEscapesStepUp | site/layout.js:97-101 | as written, a route change whose login-security check rejects shows content to a 2FA account that never passed step-up; the corrected fetch asks for step-up |
| Trace.AccountSwitchEscapesStepUp | site/layout.js:144-147 | as written, after account A passed step-up, account B signing in to the same tab is shown content; the corrected fetch asks B for step-up |
| Trace.DismissedNudgeNeverReturns | site/layout.js:134-136 | once dismissed, the nudge never shows again in that browser session |
| Trace.FirstAccountIsForcedToEnrol | site/layout.js:106-115 | the first account in an empty system is an elite owner with 1000 credits and is held at 2FA setup on every route but the security route |
| Trace.EnrolmentLeadsToStepUp | site/layout.js:206-229 | an account that enables 2FA from outside the shell is asked for step-up on the next route change, under either fetch |
| Trace.OwnerIsNeverLost | site/layout.js:106-115 | once the system has an owner, it keeps one whatever the shell does next |

## Findings

| source | as written | input that shows it | evidently intended | confidence | as-written member | corrected member |
|---|---|---|---|---|---|---|
| site/layout.js:99-101, 144-149 | `checkLoginSecurity` (or loading its module) rejecting aborts `fetchProfile` after `setProfile`, so the session-verification check never runs | a 2FA-enabled account, freshly mounted shell, `nexus_session_verified` unset, login-security check rejects: the gate renders content without step-up | the login check is a fire-and-forget side task; step-up is required for every 2FA account in an unverified session | not executed; medium | Session.FetchAsWritten, Trace.LoginCheckFailureEscapesStepUp | Session.Fetch, Trace.StepUpIsNeverSkipped |
| site/layout.js:144-147, 196 | `nexus_session_verified` is a plain `'true'` for the browser session, not tied to an account, and the logout buttons at lines 255 and 335 only call `base44.auth.logout()` | account A passes step-up; in the same tab account B, which has 2FA, signs in and navigates: the gate renders content for B. This assumes `logout` leaves session storage untouched | step-up holds per account: the flag is cleared on logout or keyed by the verified profile's id | not executed; medium | Trace.VerifiedSessionNeverStepsUp, Trace.AccountSwitchEscapesStepUp | Session.Fetch, Trace.StepUpIsNeverSkipped |

The `Trace` module runs event sequences under either fetch (`Trace.Variant`: `AsWritten` or `Corrected`). The corrected fetch fixes both rows: it runs its checks whether or not the login-security check completed, and it counts the session as verified only for the account whose code was accepted. The following hold under both fetches, so also for the code as written:

- `Trace.StepKeeps` and `Trace.RunKeeps` (the store and nudge invariants, and the persistence of the storage flags);
- `Trace.DismissedNudgeNeverReturns`;
- `Trace.FirstAccountIsForcedToEnrol`;
- `Trace.EnrolmentLeadsToStepUp`;
- `Trace.OwnerIsNeverLost`.

Only the corrected fetch keeps step-up (`Trace.StepUpIsNeverSkipped`). The two `Escapes` lemmas show the code as written failing it.

## Left out

- Rendering, styles, the sidebar and resize handling, the breadcrumb, the `alert` and the upper-cased role label are presentation only. Menu icons are presentation too; `Menu.NavItem` keeps caption and path.
- TOTP, backup-code storage, `checkLoginSecurity` and `logSecurityEvent` internals are not visible. Their results are oracle booleans or oracle functions.
- The identity provider and the profile store are inputs. A `None` caller covers both "no identity" and a rejected identity or by-creator lookup, because each ends the fetch before anything changes. A `None` creation covers both a rejected owner query and a rejected create, because both land in the same error handler.
- Logging out is not an event of its own. A different signed-in account shows up as the next fetch's caller. The model assumes `logout` leaves session storage untouched, because its body is not visible.
- A rejected TOTP or backup-code call inside the verification handler is not modelled. Like a failed code, it changes nothing.
- Out-of-order fetch results across navigations and the first-owner check-then-create race are concurrency with no cancellation in the source. The model runs each fetch to completion before the next event.
- `is_blocked` and `security_lockdown` are read but the source's branch does nothing, so no enforcement is modelled.
- Bootstrap.Resolve: assumes both store queries (`filter` by creator and `filter` by role `owner`) see every record in the store. The source runs them with the caller's own read rights. If the store hid other accounts' records from a newcomer, the owner query would come back empty and every newcomer would become owner. Bootstrap.RegistrationLeavesAnOwner, Trace.FirstAccountIsForcedToEnrol and Trace.OwnerIsNeverLost rest on the same assumption.
- Trace.OwnerIsNeverLost: holds only for sequences of the shell's own events. An edit made outside the shell can change any record's role, including the last owner's.
- Session.Verify: code length is counted in Unicode scalar values (`seq<char>`), while the source counts UTF-16 code units. The two differ only for characters outside the Basic Multilingual Plane.
- A failed creation leaves the shell's previously held profile in place rather than clearing it. The source's local `currentProfile` is empty but its React state is not reset, and the model follows that.

=== FILE: bootstrap.dfy ===
/** The resolve-or-create half of the shell's profile fetch: who is calling,
    which record is theirs, and which record is created for a newcomer. */
module Bootstrap {
  import opened Wrappers
  import opened Profiles
  import opened ProfileStore

  /** Plan and credit allotment of the first account in the system. */
  const OwnerPlan := "elite"
  const OwnerCredits := 1000
  /** Plan and credit allotment of every later account. */
  const UserPlan := "free"
  const UserCredits := 20

  /** What the external services answered during one fetch.
      - `caller`: the e-mail of the signed-in identity; `None` when there is
        none, or when the identity call or the by-creator lookup rejected
        (either way the fetch stops before changing anything).
      - `loginCheckOk`: the login-security check on an existing record
        completed; when it rejects, the fetch stops right after storing the profile.
      - `creation`: the id the store assigned to a new record; `None` when the
        owner query or the create call rejected.
      - `auditOk`: the registration audit log call completed. */
  datatype Services = Services(
    caller: Option<string>,
    loginCheckOk: bool,
    creation: Option<string>,
    auditOk: bool)

  /** The audit event the shell logs after a registration. */
  datatype AuditEvent = AuditEvent(kind: string, roleLabel: string, details: string)

  /** How a fetch ended.
      - `NoCaller`: returned early, nothing resolved.
      - `Existing`: the identity already had records; `p` is the first one,
        `checked` says whether the login-security check completed.
      - `Registered`: a record was created; `store` is the store afterwards,
        `audit` the event logged and `audited` whether logging completed.
      - `CreationFailed`: the owner query or the creation rejected. */
  datatype Resolution =
    | NoCaller
    | Existing(p: Profile, checked: bool)
    | Registered(p: Profile, store: Store, audit: AuditEvent, audited: bool)
    | CreationFailed

  function RegisterEvent(firstUser: bool): AuditEvent {
    AuditEvent("register", if firstUser then "OWNER (First User)" else "User", "New account created")
  }

  /** Resolve the caller's record, creating one when the store holds none. */
  function Resolve(store: Store, sv: Services): (r: Resolution)
    ensures sv.caller.None? <==> r.NoCaller?
    ensures r.Existing? ==>
              && sv.caller.Some?
              && r.p in store && r.p.createdBy == sv.caller.value && r.checked == sv.loginCheckOk
    ensures sv.caller.Some? && (exists i :: 0 <= i < |store| && store[i].createdBy == sv.caller.value) ==> r.Existing?
    ensures r.CreationFailed? <==> sv.caller.Some? && Filter(store, ByCreator(sv.caller.value)) == [] && sv.creation.None?
    ensures r.Registered? ==>
              && sv.caller.Some? && sv.creation.Some?
              && Filter(store, ByCreator(sv.caller.value)) == []
              && r.store == store + [r.p]
              && r.p.id == sv.creation.value && r.p.createdBy == sv.caller.value
              && r.p.totalUsage == 0 && !r.p.twoFaEnabled
              && r.audited == sv.auditOk
    ensures r.Registered? ==>
              && (r.p.role == Owner <==> !HasOwner(store))
              && (r.p.role == Owner ==>
                    r.p.plan == OwnerPlan && r.p.credits == OwnerCredits && r.audit.roleLabel == "OWNER (First User)")
              && (r.p.role != Owner ==>
                    r.p.role == User && r.p.plan == UserPlan && r.p.credits == UserCredits && r.audit.roleLabel == "User")
  {
    match sv.caller
    case None => NoCaller
    case Some(email) =>
      var mine := Filter(store, ByCreator(email));
      if |mine| > 0 then
        Existing(mine[0], sv.loginCheckOk)
      else
        match sv.creation
        case None => CreationFailed
        case Some(id) =>
          var firstUser := |Filter(store, ByRole(Owner))| == 0;
          var p := NewRecord(id, email,
                             if firstUser then Owner else User,
                             if firstUser then OwnerPlan else UserPlan,
                             if firstUser then OwnerCredits else UserCredits);
          Registered(p, store + [p], RegisterEvent(firstUser), sv.auditOk)
  }

  /** An identity that already has records resolves to the earliest of them. */
  lemma ResolveTakesFirstRecord(store: Store, sv: Services)
    requires Resolve(store, sv).Existing?
    ensures exists i :: 0 <= i < |store| && store[i] == Resolve(store, sv).p && FirstMatch(store, ByCreator(sv.caller.value), i)
  {
    FilterHeadIsFirstMatch(store, ByCreator(sv.caller.value));
  }

  /** The profile the rest of the fetch works with (`currentProfile`): present
      only when the fetch ran to its security checks. */
  function Checked(r: Resolution): Option<Profile> {
    match r
    case Existing(p, checked) => if checked then Some(p) else None
    case Registered(p, _, _, _) => Some(p)
    case _ => None
  }

  /** The profile the fetch hands to the shell's state, if any. */
  function Stored(r: Resolution): Option<Profile> {
    match r
    case Existing(p, _) => Some(p)
    case Registered(p, _, _, _) => Some(p)
    case _ => None
  }

  /** The store after the fetch: only a registration changes it. */
  function StoreAfter(store: Store, r: Resolution): Store {
    if r.Registered? then r.store else store
  }

  /** A registration audit log that fails changes neither the resolved
      profile nor the store. */
  lemma AuditOutcomeIrrelevant(store: Store, sv: Services)
    ensures Stored(Resolve(store, sv.(auditOk := true))) == Stored(Resolve(store, sv.(auditOk := false)))
    ensures Checked(Resolve(store, sv.(auditOk := true))) == Checked(Resolve(store, sv.(auditOk := false)))
    ensures StoreAfter(store, Resolve(store, sv.(auditOk := true))) == StoreAfter(store, Resolve(store, sv.(auditOk := false)))
  {
  }

  /** Resolution keeps the store's one-record-per-identity invariant and
      never removes or changes a record. */
  lemma ResolvePreservesStore(store: Store, sv: Services)
    requires OnePerCreator(store)
    ensures OnePerCreator(StoreAfter(store, Resolve(store, sv)))
    ensures StoreAfter(store, Resolve(store, sv))[..|store|] == store
    ensures HasOwner(store) ==> HasOwner(StoreAfter(store, Resolve(store, sv)))
  {
    var r := Resolve(store, sv);
    if r.Registered? {
      CreatePreservesOnePerCreator(store, r.p);
      assert r.store[..|store|] == store;
      if HasOwner(store) {
        var i :| 0 <= i < |store| && store[i].role == Owner;
        assert r.store[i].role == Owner;
      }
    }
  }

  /** After any successful registration the system holds an owner. */
  lemma RegistrationLeavesAnOwner(store: Store, sv: Services)
    requires Resolve(store, sv).Registered?
    ensures HasOwner(Resolve(store, sv).store)
  {
    var r := Resolve(store, sv);
    if HasOwner(store) {
      var i :| 0 <= i < |store| && store[i].role == Owner;
      assert r.store[i].role == Owner;
    } else {
      assert r.store[|store|].role == Owner;
    }
  }

  /** A second fetch by the same identity after it registered finds the
      record just created and creates nothing. */
  lemma {:induction false} RegistrationIsFoundAgain(store: Store, sv: Services, sv': Services)
    requires Resolve(store, sv).Registered?
    requires sv'.caller == sv.caller
    ensures Resolve(Resolve(store, sv).store, sv') == Existing(Resolve(store, sv).p, sv'.loginCheckOk)
  {
    var r := Resolve(store, sv);
    var q := ByCreator(sv.caller.value);
    FilterAppend(store, q, r.p);
    assert Filter(r.store, q) == [r.p];
  }
}

=== FILE: gate.dfy ===
/** The render decision the shell takes before drawing anything: the
    mandatory-2FA interstitial, the step-up interstitial, or the content. */
module Gate {
  import opened Wrappers
  import opened Profiles

  /** The route that stays reachable while 2FA setup is being enforced. */
  const SecurityRoute := "/Security"

  datatype Decision = Enforce2FASetup | StepUp | Content

  /** The decision for the current profile, route and in-memory
      "session verified" flag. The setup check comes first. */
  function Decide(profile: Option<Profile>, path: string, verified: bool): (d: Decision)
    ensures d == Enforce2FASetup <==>
              profile.Some? && Privileged(profile.value.role) && !profile.value.twoFaEnabled && path != SecurityRoute
    ensures d == StepUp <==> !verified && profile.Some? && profile.value.twoFaEnabled
    ensures profile.None? ==> d == Content
  {
    if profile.Some? && Privileged(profile.value.role) && !profile.value.twoFaEnabled && path != SecurityRoute then
      Enforce2FASetup
    else if !verified && profile.Some? && profile.value.twoFaEnabled then
      StepUp
    else
      Content
  }

  /** The gate as a four-state machine: no profile yet, setup enforced,
      awaiting step-up, authorized. */
  datatype GateState = NoProfile | EnforceSetup | AwaitStepUp | Authorized

  /** The state each input selects, written from the states' entry conditions. */
  function StateOf(profile: Option<Profile>, path: string, verified: bool): GateState {
    match profile
    case None => NoProfile
    case Some(p) =>
      if p.twoFaEnabled then
        (if verified then Authorized else AwaitStepUp)
      else if Privileged(p.role) && path != SecurityRoute then EnforceSetup
      else Authorized
  }

  /** What each state renders: without a profile the content renders (fail-open). */
  function RenderOf(g: GateState): Decision {
    match g
    case NoProfile => Content
    case EnforceSetup => Enforce2FASetup
    case AwaitStepUp => StepUp
    case Authorized => Content
  }

  /** The shell's decision agrees with the state machine on every input. */
  lemma DecideMatchesStateMachine(profile: Option<Profile>, path: string, verified: bool)
    ensures Decide(profile, path, verified) == RenderOf(StateOf(profile, path, verified))
  {
  }

  /** A privileged account without 2FA is held at the setup interstitial on
      every route except the security route, where the content renders. */
  lemma PrivilegedWithout2FA(p: Profile, path: string, verified: bool)
    requires Privileged(p.role) && !p.twoFaEnabled
    ensures path != SecurityRoute ==> Decide(Some(p), path, verified) == Enforce2FASetup
    ensures path == SecurityRoute ==> Decide(Some(p), path, verified) == Content
  {
  }

  /** An account with 2FA in an unverified session is asked to step up on every route. */
  lemma StepUpOnEveryRoute(p: Profile, path: string, path': string)
    requires p.twoFaEnabled
    ensures Decide(Some(p), path, false) == StepUp
    ensures Decide(Some(p), path, false) == Decide(Some(p), path', false)
  {
  }
}

=== FILE: menu.dfy ===
/** The role-dependent part of the sidebar menu. */
module Menu {
  import opened Wrappers
  import opened Profiles

  /** A menu entry; the icon is presentation and is not modelled. */
  datatype NavItem = NavItem(caption: string, path: string)

  const AdminPath := "/Admin"
  const OwnerPath := "/Owner"

  /** The entries every visitor sees, in menu order. */
  const BaseItems: seq<NavItem> := [
    NavItem("DASHBOARD", "/"),
    NavItem("VIRAL SIMULATOR", "/ViralSimulator"),
    NavItem("PSYCH PROFILE", "/PsychProfile"),
    NavItem("CONFLICT GEN", "/ConflictGen"),
    NavItem("DEAD TEXT", "/DeadText"),
    NavItem("PERSONAS", "/Personas"),
    NavItem("BANCO DE PADRÕES", "/PatternBank"),
    NavItem("TESTE A/B", "/ABTester"),
    NavItem("HISTÓRICO", "/History"),
    NavItem("UPGRADE / PLANOS", "/Plans"),
    NavItem("SEGURANÇA", "/Security")
  ]

  predicate Lists(items: seq<NavItem>, path: string) {
    exists i :: 0 <= i < |items| && items[i].path == path
  }

  /** The menu for the shell's current profile: the base entries, then ADMIN
      for admins and owners, then OWNER for owners. */
  function NavItems(profile: Option<Profile>): (items: seq<NavItem>)
    ensures |items| == |BaseItems|
                       + (if profile.Some? && Privileged(profile.value.role) then 1 else 0)
                       + (if profile.Some? && profile.value.role == Owner then 1 else 0)
    ensures items[..|BaseItems|] == BaseItems
    ensures profile.Some? && Privileged(profile.value.role) ==> items[|BaseItems|] == NavItem("ADMIN", AdminPath)
    ensures profile.Some? && profile.value.role == Owner ==> items[|items| - 1] == NavItem("OWNER", OwnerPath)
  {
    var withAdmin :=
      if profile.Some? && (profile.value.role == Admin || profile.value.role == Owner)
      then BaseItems + [NavItem("ADMIN", AdminPath)]
      else BaseItems;
    if profile.Some? && profile.value.role == Owner
    then withAdmin + [NavItem("OWNER", OwnerPath)]
    else withAdmin
  }

  /** The ADMIN route is listed exactly for admins and owners, the OWNER
      route exactly for owners; without a profile only the base entries show. */
  lemma NavItemsListRoleRoutes(profile: Option<Profile>)
    ensures Lists(NavItems(profile), AdminPath) <==> profile.Some? && Privileged(profile.value.role)
    ensures Lists(NavItems(profile), OwnerPath) <==> profile.Some? && profile.value.role == Owner
    ensures profile.None? ==> NavItems(profile) == BaseItems
  {
  }
}

=== FILE: profile_store.dfy ===
/** The Profile Store as a sequence of records in the order the store
    returns them, with the two queries the shell issues and record creation. */
module ProfileStore {
  import opened Profiles

  type Store = seq<Profile>

  /** The two `filter` queries the shell issues: by creator and by role. */
  datatype Query = ByCreator(email: string) | ByRole(role: Role)

  predicate Matches(q: Query, p: Profile) {
    match q
    case ByCreator(email) => p.createdBy == email
    case ByRole(role) => p.role == role
  }

  /** The records matching `q`, in store order. */
  function Filter(store: Store, q: Query): (r: seq<Profile>)
    ensures |r| <= |store|
    ensures forall p :: p in r <==> p in store && Matches(q, p)
    ensures |r| == 0 <==> forall i :: 0 <= i < |store| ==> !Matches(q, store[i])
  {
    if |store| == 0 then []
    else if Matches(q, store[0]) then [store[0]] + Filter(store[1..], q)
    else Filter(store[1..], q)
  }

  /** A non-empty query result is headed by the earliest matching record. */
  lemma {:induction false} FilterHeadIsFirstMatch(store: Store, q: Query)
    requires |Filter(store, q)| > 0
    ensures exists i :: 0 <= i < |store| && store[i] == Filter(store, q)[0] && FirstMatch(store, q, i)
    decreases |store|
  {
    if Matches(q, store[0]) {
      assert FirstMatch(store, q, 0);
    } else {
      FilterHeadIsFirstMatch(store[1..], q);
      var i :| 0 <= i < |store[1..]| && store[1..][i] == Filter(store[1..], q)[0] && FirstMatch(store[1..], q, i);
      assert FirstMatch(store, q, i + 1);
    }
  }

  /** `i` is the position of the earliest record matching `q`. */
  predicate FirstMatch(store: Store, q: Query, i: nat)
    requires i < |store|
  {
    Matches(q, store[i]) && forall j :: 0 <= j < i ==> !Matches(q, store[j])
  }

  /** Appending a record extends the query result by that record exactly when it matches. */
  lemma {:induction false} FilterAppend(store: Store, q: Query, p: Profile)
    ensures Filter(store + [p], q) == Filter(store, q) + (if Matches(q, p) then [p] else [])
    decreases |store|
  {
    if |store| == 0 {
      assert store + [p] == [p];
    } else {
      assert (store + [p])[1..] == store[1..] + [p];
      FilterAppend(store[1..], q, p);
    }
  }

  /** Store invariant: at most one record per creating identity. */
  predicate OnePerCreator(store: Store) {
    forall i, j :: 0 <= i < j < |store| ==> store[i].createdBy != store[j].createdBy
  }

  /** Some record in the store holds the owner role. */
  predicate HasOwner(store: Store) {
    exists i :: 0 <= i < |store| && store[i].role == Owner
  }

  /** The record `create` returns: the store assigns `id` and stamps
      `createdBy` with the caller; fields the shell does not send are absent,
      hence falsy. */
  function NewRecord(id: string, email: string, role: Role, plan: string, credits: int): Profile {
    Profile(id, email, role, plan, credits, 0, false, "", false, false)
  }

  /** Creating a record for an identity with no record keeps one record per identity. */
  lemma CreatePreservesOnePerCreator(store: Store, p: Profile)
    requires OnePerCreator(store)
    requires Filter(store, ByCreator(p.createdBy)) == []
    ensures OnePerCreator(store + [p])
  {
    forall i | 0 <= i < |store|
      ensures store[i].createdBy != p.createdBy
    {
      assert !Matches(ByCreator(p.createdBy), store[i]);
    }
  }

  /** With one record per identity, an identity's record is the whole
      by-creator query result. */
  lemma OwnRecordIsTheOnlyMatch(store: Store, i: int)
    requires OnePerCreator(store) && 0 <= i < |store|
    ensures Filter(store, ByCreator(store[i].createdBy)) == [store[i]]
  {
    var q := ByCreator(store[i].createdBy);
    var r := Filter(store, q);
    assert store[i] in r;
    AtMostOneOwnRecord(store, q, i);
    assert r == [r[0]];
  }

  /** With one record per creator, an identity's by-creator query returns at most one record. */
  lemma {:induction false} AtMostOneOwnRecord(store: Store, q: Query, i: int)
    requires OnePerCreator(store) && 0 <= i < |store| && q == ByCreator(store[i].createdBy)
    ensures |Filter(store, q)| <= 1
    decreases |store|
  {
    if i > 0 {
      assert !Matches(q, store[0]);
      assert OnePerCreator(store[1..]);
      assert store[1..][i - 1] == store[i];
      AtMostOneOwnRecord(store[1..], q, i - 1);
    } else {
      assert Filter(store[1..], q) == [] by {
        forall k | 0 <= k < |store[1..]| ensures !Matches(q, store[1..][k]) {
          assert store[1..][k] == store[k + 1];
        }
      }
    }
  }
}

=== FILE: profiles.dfy ===
/** The account record ("NexusProfile") as far as the authorization gate reads it. */
module Profiles {

  /** The three privilege tiers an account can hold. */
  datatype Role = User | Admin | Owner

  /** Admins and owners are the privileged tiers: they must enrol in 2FA
      and they see the ADMIN menu entry. */
  predicate Privileged(r: Role) {
    r == Admin || r == Owner
  }

  /** One account record. `createdBy` is the e-mail of the identity the
      store recorded as the record's creator; `plan`, `credits` and
      `totalUsage` are carried for display only. A store field that is
      absent reads as falsy in the shell, so it is `false` or `""` here. */
  datatype Profile = Profile(
    id: string,
    createdBy: string,
    role: Role,
    plan: string,
    credits: int,
    totalUsage: int,
    twoFaEnabled: bool,
    twoFaSecret: string,
    isBlocked: bool,
    securityLockdown: bool)
}

=== FILE: session.dfy ===
/** The shell's per-tab state and the transitions that change it: a profile
    fetch, a step-up code submission, a nudge dismissal and a route change. */
module Session {
  import opened Wrappers
  import opened Profiles
  import opened Bootstrap
  import opened Gate

  /** Length of a backup code; only codes of this length reach the backup check. */
  const BackupCodeLength := 8

  /** The two session-storage flags; they survive a remount of the shell
      within the same browser session.
      - `verifiedFor` is `nexus_session_verified`. The shell writes only
        `'true'` there; the model also records the id of the account whose
        code was accepted, which only the corrected fetch reads.
      - `popupDismissed` is `security_popup_dismissed`. */
  datatype Storage = Storage(verifiedFor: Option<string>, popupDismissed: bool)

  /** `nexus_session_verified` is set, for whichever account. */
  predicate Verified(st: Storage) {
    st.verifiedFor.Some?
  }

  /** `nexus_session_verified` was set by a code accepted for `p`. */
  predicate VerifiedFor(st: Storage, p: Profile) {
    st.verifiedFor == Some(p.id)
  }

  /** Storage of a new browser session. */
  const EmptyStorage := Storage(None, false)

  /** The shell's state: the profile it holds, the current route, the
      in-memory verified flag, whether the 2FA nudge is showing, and storage. */
  datatype ShellState = ShellState(
    profile: Option<Profile>,
    path: string,
    isSessionVerified: bool,
    showSecurityPopup: bool,
    storage: Storage)

  /** A dismissed nudge is not showing. */
  predicate NudgeConsistent(s: ShellState) {
    s.storage.popupDismissed ==> !s.showSecurityPopup
  }

  /** A session whose storage is verified is verified in memory: the
      invariant the shell as written keeps. */
  predicate VerifiedInMemory(s: ShellState) {
    Verified(s.storage) ==> s.isSessionVerified
  }

  /** A held 2FA account that has not itself passed step-up in this browser
      session is unverified in memory: the invariant the corrected fetch keeps. */
  predicate StepUpKept(s: ShellState) {
    (s.profile.Some? && s.profile.value.twoFaEnabled && !VerifiedFor(s.storage, s.profile.value)) ==>
      !s.isSessionVerified
  }

  /** The state of a freshly mounted shell: no profile, verified in memory
      until a profile says otherwise, no nudge. */
  function Mount(path: string, storage: Storage): (s: ShellState)
    ensures s.profile.None? && s.isSessionVerified && !s.showSecurityPopup
    ensures s.storage == storage && s.path == path
    ensures NudgeConsistent(s) && VerifiedInMemory(s) && StepUpKept(s)
    ensures Decide(s.profile, s.path, s.isSessionVerified) == Content
  {
    ShellState(None, path, true, false, storage)
  }

  /** The decision the shell renders in state `s`. */
  function Render(s: ShellState): Decision {
    Decide(s.profile, s.path, s.isSessionVerified)
  }

  /** In a state that keeps step-up, a held 2FA account that has not itself
      passed step-up is shown the step-up interstitial. */
  lemma StepUpKeptRendersStepUp(s: ShellState)
    requires StepUpKept(s)
    requires s.profile.Some? && s.profile.value.twoFaEnabled && !VerifiedFor(s.storage, s.profile.value)
    ensures Render(s) == StepUp
  {
  }

  /** Apply the outcome of a profile fetch exactly as the shell does: store
      the resolved profile, then run the nudge and verification checks only
      when the fetch reached them, treating any set verification flag as
      verified. A rejected login-security check on an existing record aborts
      the fetch before the checks. */
  function FetchAsWritten(s: ShellState, r: Resolution): (s': ShellState)
    ensures s'.profile == (if Stored(r).Some? then Stored(r) else s.profile)
    ensures s'.path == s.path && s'.storage == s.storage
    ensures s'.showSecurityPopup <==>
              || s.showSecurityPopup
              || (Checked(r).Some? && !Checked(r).value.twoFaEnabled && !s.storage.popupDismissed)
    ensures s'.isSessionVerified <==>
              && s.isSessionVerified
              && !(Checked(r).Some? && Checked(r).value.twoFaEnabled && !Verified(s.storage))
    ensures NudgeConsistent(s) ==> NudgeConsistent(s')
    ensures VerifiedInMemory(s) ==> VerifiedInMemory(s')
  {
    match r
    case NoCaller => s
    case CreationFailed => s
    case Existing(p, checked) =>
      var held := s.(profile := Some(p));
      if checked then SecurityChecks(held, p, Verified(s.storage)) else held
    case Registered(p, _, _, _) =>
      SecurityChecks(s.(profile := Some(p)), p, Verified(s.storage))
  }

  /** A 2FA account whose login-security check rejects is shown the content
      of a freshly mounted shell without step-up verification. */
  lemma LoginCheckFailureSkipsStepUp(path: string)
    ensures var p := Profile("p1", "a@example.com", User, "free", 20, 0, true, "SECRET", false, false);
            && Render(FetchAsWritten(Mount(path, EmptyStorage), Existing(p, false))) == Content
            && Render(Fetch(Mount(path, EmptyStorage), Existing(p, false))) == StepUp
  {
  }

  /** The corrected fetch. Apply the outcome of a profile fetch: store the
      resolved profile, then raise the nudge and drop the in-memory verified flag as that profile
      requires, whether or not the login-security check completed, counting
      the session as verified only for the account that passed step-up. */
  function Fetch(s: ShellState, r: Resolution): (s': ShellState)
    ensures s'.profile == (if Stored(r).Some? then Stored(r) else s.profile)
    ensures s'.path == s.path && s'.storage == s.storage
    ensures s'.showSecurityPopup <==>
              || s.showSecurityPopup
              || (Stored(r).Some? && !Stored(r).value.twoFaEnabled && !s.storage.popupDismissed)
    ensures s'.isSessionVerified <==>
              && s.isSessionVerified
              && !(Stored(r).Some? && Stored(r).value.twoFaEnabled && !VerifiedFor(s.storage, Stored(r).value))
    ensures NudgeConsistent(s) ==> NudgeConsistent(s')
    ensures StepUpKept(s) ==> StepUpKept(s')
  {
    match r
    case NoCaller => s
    case CreationFailed => s
    case Existing(p, _) => SecurityChecks(s.(profile := Some(p)), p, VerifiedFor(s.storage, p))
    case Registered(p, _, _, _) => SecurityChecks(s.(profile := Some(p)), p, VerifiedFor(s.storage, p))
  }

  /** A fetch that resolves a 2FA account which has not passed step-up in
      this browser session always ends at the step-up interstitial. */
  lemma FetchOf2FAAccountStepsUp(s: ShellState, r: Resolution)
    requires Stored(r).Some? && Stored(r).value.twoFaEnabled && !VerifiedFor(s.storage, Stored(r).value)
    ensures Render(Fetch(s, r)) == StepUp
  {
  }

  /** The nudge and session-verification checks a completed fetch runs on
      `p`; `verified` is what the fetch reads from the verification flag. */
  function SecurityChecks(s: ShellState, p: Profile, verified: bool): ShellState {
    var nudged :=
      if !p.twoFaEnabled && !s.storage.popupDismissed then s.(showSecurityPopup := true) else s;
    if p.twoFaEnabled && !verified then nudged.(isSessionVerified := false) else nudged
  }

  /** The outcome of checking one code. */
  datatype Attempt = Attempt(accepted: bool, backupConsulted: bool)

  /** Check `code` against the TOTP oracle first and, when that fails and
      the code has backup-code length, against the backup-code oracle. */
  function Verify(code: string, secret: string, id: string,
                  totp: (string, string) -> bool, backup: (string, string) -> bool): (a: Attempt)
    ensures a.backupConsulted <==> !totp(code, secret) && |code| == BackupCodeLength
    ensures a.accepted <==> totp(code, secret) || (|code| == BackupCodeLength && backup(id, code))
  {
    var totpOk := totp(code, secret);
    if !totpOk && |code| == BackupCodeLength then
      Attempt(backup(id, code), true)
    else
      Attempt(totpOk, false)
  }

  /** A code of any length other than the backup length is judged by the
      TOTP check alone: the backup oracle cannot change the outcome. */
  lemma BackupIgnoredUnlessBackupLength(code: string, secret: string, id: string,
                                        totp: (string, string) -> bool,
                                        backup: (string, string) -> bool, backup': (string, string) -> bool)
    requires |code| != BackupCodeLength
    ensures Verify(code, secret, id, totp, backup) == Verify(code, secret, id, totp, backup')
    ensures Verify(code, secret, id, totp, backup).accepted == totp(code, secret)
  {
  }

  /** Submit the code typed into the step-up form. Without a profile the
      shell's handler fails on the missing secret and nothing changes. */
  function Submit(s: ShellState, code: string,
                  totp: (string, string) -> bool, backup: (string, string) -> bool): (s': ShellState)
    ensures s'.profile == s.profile && s'.path == s.path && s'.showSecurityPopup == s.showSecurityPopup
    ensures s.profile.None? ==> s' == s
    ensures s.profile.Some? && Verify(code, s.profile.value.twoFaSecret, s.profile.value.id, totp, backup).accepted ==>
              && s'.isSessionVerified && VerifiedFor(s'.storage, s.profile.value)
              && s'.storage.popupDismissed == s.storage.popupDismissed
              && Render(s') != StepUp
              && (Render(s) == StepUp ==> Render(s') == Content)
    ensures s.profile.Some? && !Verify(code, s.profile.value.twoFaSecret, s.profile.value.id, totp, backup).accepted ==>
              s' == s
    ensures NudgeConsistent(s) ==> NudgeConsistent(s')
    ensures VerifiedInMemory(s) ==> VerifiedInMemory(s')
    ensures StepUpKept(s) ==> StepUpKept(s')
  {
    match s.profile
    case None => s
    case Some(p) =>
      if Verify(code, p.twoFaSecret, p.id, totp, backup).accepted then
        s.(storage := s.storage.(verifiedFor := Some(p.id)), isSessionVerified := true)
      else
        s
  }

  /** Close the nudge and remember the dismissal for the rest of the session. */
  function Dismiss(s: ShellState): (s': ShellState)
    ensures !s'.showSecurityPopup && s'.storage.popupDismissed
    ensures s'.profile == s.profile && s'.path == s.path && s'.isSessionVerified == s.isSessionVerified
    ensures s'.storage.verifiedFor == s.storage.verifiedFor
    ensures NudgeConsistent(s')
    ensures VerifiedInMemory(s) ==> VerifiedInMemory(s')
    ensures StepUpKept(s) ==> StepUpKept(s')
  {
    s.(showSecurityPopup := false, storage := s.storage.(popupDismissed := true))
  }

  /** Once dismissed, no later fetch in the session shows the nudge again. */
  lemma DismissedNudgeStaysHidden(s: ShellState, r: Resolution)
    ensures !Fetch(Dismiss(s), r).showSecurityPopup
  {
  }

  /** A dismissal hides the nudge only for its own browser session: after a
      dismissal a fetch leaves it hidden, while in a new browser session
      (empty storage) the same fetch shows it. */
  lemma FreshSessionShowsNudge(s: ShellState, path: string, r: Resolution)
    requires Stored(r).Some? && !Stored(r).value.twoFaEnabled
    ensures !Fetch(Dismiss(s), r).showSecurityPopup
    ensures Fetch(Mount(path, EmptyStorage), r).showSecurityPopup
  {
  }
}

=== FILE: trace.dfy ===
/** Whole browser sessions: the store together with the shell's state,
    driven by a sequence of user, shell and store events. */
module Trace {
  import opened Wrappers
  import opened Profiles
  import opened ProfileStore
  import opened Bootstrap
  import opened Gate
  import opened Session

  datatype World = World(store: Store, session: ShellState)

  /** One event. A route change or a remount triggers a profile fetch whose
      service answers are `sv`; a code submission carries the two
      verification oracles; `ProfileEdited` is a change made to record `i`
      outside the shell (the security page enabling 2FA, an admin changing
      a role), which keeps the record's creator. */
  datatype Event =
    | Navigate(path: string, sv: Services)
    | Remount(path: string, sv: Services)
    | SubmitCode(code: string, totp: (string, string) -> bool, backup: (string, string) -> bool)
    | DismissNudge
    | ProfileEdited(i: int, p: Profile)

  /** Which fetch the shell runs: the code as written, or the corrected one
      that runs its checks even when the login-security check rejects and
      counts the session as verified only for the account that passed step-up. */
  datatype Variant = AsWritten | Corrected

  /** Run one fetch against the store. */
  function FetchIn(v: Variant, store: Store, s: ShellState, sv: Services): World {
    var r := Resolve(store, sv);
    World(StoreAfter(store, r), if v == AsWritten then FetchAsWritten(s, r) else Fetch(s, r))
  }

  /** One event. The fetch is re-run only when the route actually changes; the
      code form exists only on the step-up screen; the nudge's close button
      exists only on the content screen while the nudge is showing; an edit
      outside the shell reaches the shell only through its next fetch. */
  function Step(v: Variant, w: World, e: Event): World {
    match e
    case Navigate(path, sv) =>
      if path == w.session.path then w
      else FetchIn(v, w.store, w.session.(path := path), sv)
    case Remount(path, sv) =>
      FetchIn(v, w.store, Mount(path, w.session.storage), sv)
    case SubmitCode(code, totp, backup) =>
      if Render(w.session) == StepUp then w.(session := Submit(w.session, code, totp, backup))
      else w
    case DismissNudge =>
      if Render(w.session) == Content && w.session.showSecurityPopup then w.(session := Dismiss(w.session))
      else w
    case ProfileEdited(i, p) =>
      if 0 <= i < |w.store| && p.createdBy == w.store[i].createdBy then w.(store := w.store[i := p])
      else w
  }

  function Run(v: Variant, w: World, events: seq<Event>): World
    decreases |events|
  {
    if |events| == 0 then w else Run(v, Step(v, w, events[0]), events[1..])
  }

  /** Only the shell acts: no record is edited from outside. */
  predicate ShellOnly(events: seq<Event>) {
    forall k :: 0 <= k < |events| ==> !events[k].ProfileEdited?
  }

  /** The invariant every reachable world keeps under variant `v`. */
  predicate Good(v: Variant, w: World) {
    && OnePerCreator(w.store)
    && NudgeConsistent(w.session)
    && (if v == AsWritten then VerifiedInMemory(w.session) else StepUpKept(w.session))
  }

  /** A browser session begins with a freshly mounted shell. */
  lemma StartIsGood(v: Variant, store: Store, path: string, storage: Storage)
    requires OnePerCreator(store)
    ensures Good(v, World(store, Mount(path, storage)))
  {
  }

  /** What one event preserves, and what it never takes back: the store's
      size, the two storage flags and, for the shell's own events, every
      record and an owner's existence. */
  lemma StepKeeps(v: Variant, w: World, e: Event)
    requires Good(v, w)
    ensures Good(v, Step(v, w, e))
    ensures |w.store| <= |Step(v, w, e).store|
    ensures !e.ProfileEdited? ==> Step(v, w, e).store[..|w.store|] == w.store
    ensures !e.ProfileEdited? && HasOwner(w.store) ==> HasOwner(Step(v, w, e).store)
    ensures Verified(w.session.storage) ==> Verified(Step(v, w, e).session.storage)
    ensures w.session.storage.popupDismissed ==> Step(v, w, e).session.storage.popupDismissed
  {
    match e
    case Navigate(path, sv) =>
      ResolvePreservesStore(w.store, sv);
    case Remount(path, sv) =>
      ResolvePreservesStore(w.store, sv);
    case SubmitCode(_, _, _) =>
    case DismissNudge =>
    case ProfileEdited(i, p) =>
  }

  /** The same, for any sequence of events. */
  lemma {:induction false} RunKeeps(v: Variant, w: World, events: seq<Event>)
    requires Good(v, w)
    ensures Good(v, Run(v, w, events))
    ensures |w.store| <= |Run(v, w, events).store|
    ensures ShellOnly(events) ==> Run(v, w, events).store[..|w.store|] == w.store
    ensures ShellOnly(events) && HasOwner(w.store) ==> HasOwner(Run(v, w, events).store)
    ensures Verified(w.session.storage) ==> Verified(Run(v, w, events).session.storage)
    ensures w.session.storage.popupDismissed ==> Run(v, w, events).session.storage.popupDismissed
    decreases |events|
  {
    if |events| > 0 {
      var w' := Step(v, w, events[0]);
      StepKeeps(v, w, events[0]);
      RunKeeps(v, w', events[1..]);
      if ShellOnly(events) {
        assert ShellOnly(events[1..]) by {
          forall k | 0 <= k < |events[1..]| ensures !events[1..][k].ProfileEdited? {
            assert events[1..][k] == events[k + 1];
          }
        }
        var end := Run(v, w', events[1..]).store;
        assert end[..|w.store|] == end[..|w'.store|][..|w.store|];
      }
    }
  }

  /** Under the corrected fetch, in every reachable state a held 2FA account
      that has not itself passed step-up in this browser session is shown
      the step-up interstitial. */
  lemma StepUpIsNeverSkipped(w: World, events: seq<Event>)
    requires Good(Corrected, w)
    ensures var s := Run(Corrected, w, events).session;
            s.profile.Some? && s.profile.value.twoFaEnabled && !VerifiedFor(s.storage, s.profile.value) ==>
              Render(s) == StepUp
  {
    RunKeeps(Corrected, w, events);
  }

  /** Under the fetch as written, once any account passed step-up in a
      browser session, no later state of that session renders step-up, for
      that account or any other one the tab signs in to. */
  lemma VerifiedSessionNeverStepsUp(w: World, events: seq<Event>)
    requires Good(AsWritten, w) && Verified(w.session.storage)
    ensures Render(Run(AsWritten, w, events).session) != StepUp
  {
    RunKeeps(AsWritten, w, events);
  }

  /** A 2FA account with and another 2FA account without a verified session. */
  const AccountA := Profile("pa", "a@example.com", User, "free", 20, 0, true, "SECRET-A", false, false)
  const AccountB := Profile("pb", "b@example.com", User, "free", 20, 0, true, "SECRET-B", false, false)

  /** As written, a rejected login-security check on a route change lets a
      2FA account that never passed step-up reach the content; the corrected
      fetch asks for step-up. */
  lemma LoginCheckFailureEscapesStepUp()
    ensures var w := World([AccountA], Mount("/", EmptyStorage));
            var e := Navigate("/History", Services(Some(AccountA.createdBy), false, None, true));
            && Good(AsWritten, w) && Good(Corrected, w)
            && Step(AsWritten, w, e).session.profile == Some(AccountA)
            && Render(Step(AsWritten, w, e).session) == Content
            && Render(Step(Corrected, w, e).session) == StepUp
  {
    assert Filter([AccountA], ByCreator(AccountA.createdBy)) == [AccountA];
  }

  /** As written, the verification flag outlives a change of account in the
      tab: after account A passed step-up, account B signing in is shown the
      content; the corrected fetch asks B for step-up. */
  lemma AccountSwitchEscapesStepUp()
    ensures var w := World([AccountA, AccountB],
                           ShellState(Some(AccountA), "/", true, false, Storage(Some(AccountA.id), false)));
            var e := Navigate("/History", Services(Some(AccountB.createdBy), true, None, true));
            && Good(AsWritten, w) && Good(Corrected, w)
            && Step(AsWritten, w, e).session.profile == Some(AccountB)
            && Render(Step(AsWritten, w, e).session) == Content
            && Render(Step(Corrected, w, e).session) == StepUp
  {
    assert Filter([AccountA, AccountB], ByCreator(AccountB.createdBy)) == [AccountB];
  }

  /** The very first account is created as owner on the elite plan and,
      having no 2FA yet, is held at the setup interstitial on every route
      but the security route. */
  lemma FirstAccountIsForcedToEnrol(v: Variant, path: string, storage: Storage, sv: Services)
    requires sv.caller.Some? && sv.creation.Some?
    ensures var w := FetchIn(v, [], Mount(path, storage), sv);
            && |w.store| == 1 && w.session.profile == Some(w.store[0])
            && w.store[0].role == Owner && w.store[0].plan == OwnerPlan && w.store[0].credits == OwnerCredits
            && Render(w.session) == (if path == SecurityRoute then Content else Enforce2FASetup)
  {
  }

  /** The gate's main path: an account enables 2FA from the security page,
      and the next route change asks it for step-up, under both fetches. */
  lemma EnrolmentLeadsToStepUp(v: Variant, w: World, i: int, path: string, sv: Services)
    requires Good(v, w) && 0 <= i < |w.store|
    requires sv.caller == Some(w.store[i].createdBy) && sv.loginCheckOk
    requires !Verified(w.session.storage) && path != w.session.path
    ensures var p := w.store[i].(twoFaEnabled := true);
            var end := Run(v, w, [ProfileEdited(i, p), Navigate(path, sv)]);
            && end.session.profile == Some(p)
            && Render(end.session) == StepUp
  {
    var p := w.store[i].(twoFaEnabled := true);
    var e1 := ProfileEdited(i, p);
    var e2 := Navigate(path, sv);
    var w1 := Step(v, w, e1);
    StepKeeps(v, w, e1);
    assert w1.store == w.store[i := p] && w1.store[i] == p;
    OwnRecordIsTheOnlyMatch(w1.store, i);
    assert [e1, e2][1..] == [e2];
    assert Run(v, w, [e1, e2]) == Run(v, w1, [e2]);
    assert Run(v, w1, [e2]) == Step(v, w1, e2);
  }

  /** Once the system has an owner it keeps one, whatever the shell does
      next (edits from outside the shell can change roles). */
  lemma OwnerIsNeverLost(v: Variant, w: World, events: seq<Event>)
    requires Good(v, w) && HasOwner(w.store) && ShellOnly(events)
    ensures HasOwner(Run(v, w, events).store)
  {
    RunKeeps(v, w, events);
  }

  /** After the nudge is dismissed it never shows again in that browser session. */
  lemma DismissedNudgeNeverReturns(v: Variant, w: World, events: seq<Event>)
    requires Good(v, w) && w.session.storage.popupDismissed
    ensures !Run(v, w, events).session.showSecurityPopup
  {
    RunKeeps(v, w, events);
  }
}

=== FILE: wrappers.dfy ===
/** The optional-value type used wherever the shell holds "a profile or nothing". */
module Wrappers {

  /** `None` plays the part of JavaScript's `null`/`undefined`. */
  datatype Option<+T> = None | Some(value: T)
}
